=== FILE: README.md ===
# Segment-aware zstd frame multiplexer, modelled in Dafny

The system is the compression backend of a streaming tar writer. The archive
library hands it one interleaved byte stream of entry headers and entry
contents. The driver announces each new segment with `changeState` before
the segment's bytes arrive. The backend buffers the bytes and writes them out
as independently closed zstd frames. No frame mixes two segments. Each frame
of a segment index >= 1 is compressed with a profile chosen by the parity of
that index: content (level 13, strategy 6) for even indices, header
(level 22, strategy 9) for odd ones, with 2 workers either way. Segment 0 is
different (see below): its first frame can be compressed by the untouched
context, which sets none of these parameters.

The model covers struct `ABC` of `1.cc` and the callbacks `cbWrite` and
`cbClose`. Its state is an immutable record, `Multiplexer.Mux<T>`, holding:

- the applied and declared segment counters (`m_state`, `m_expected`);
- the buffer capacity;
- the pending input bytes (`m_bufIn[0..m_posIn)`);
- the parameters set on the compression context;
- the frames written to the output file so far.

Every member function and callback is a pure transition. The compressor is
abstract. Draining the buffer to the end of a frame is modelled as one step
that emits `Frame(payload, config)`. `config` is the set of context parameters
in force when the flush happens. A context is modelled by the parameters
explicitly set on it, and `map[]` stands for a freshly created context at
library defaults.

Modules:

- `Profiles` holds the profile table and `resetZstdSession`. The reset is
  written step by step (reset everything, then three `setParameter` calls)
  and is proved equal to the table.
- `Multiplexer` holds the state, the segment tracker, `writeData`,
  `flushData`, `cbWrite`, `cbClose`, and the invariant that holds between
  callbacks.
- `Traces` holds whole runs: a session is open, then a sequence of
  declarations and writes, then close. It proves byte conservation, the
  round trip, append-only output and lazy boundary detection.
- `Alignment` proves segment alignment. Each byte is annotated with the
  segment index it was written under, and the same machine is run on the
  annotated stream. Dropping the annotations gives back the plain run. In the
  annotated run every frame holds bytes of one segment. A frame of segment
  k >= 1 is compressed under that segment's profile; a frame of segment 0
  under the content profile or the untouched context.
- `Scenarios` works through concrete runs, including the two-entry archive.

The machine is generic in the byte type `T`, which is what makes the
annotated run possible. `Multiplexer.Byte` is the concrete byte type.

Behaviour of the code worth noting:

- The constructor and `cbOpen` perform no reset (1.cc:20-24, 1.cc:86-88). So
  the first frame of segment 0 is compressed by the untouched default context,
  unless the first non-empty write of segment 0 has exactly `capacity` bytes:
  that write's flush test holds on the empty buffer and retunes the context
  to the content profile before the bytes arrive. Empty writes before it
  change nothing (`Scenarios.EmptyThenExactCapacity`). Only the very first
  frame of a session can use the untouched context
  (`Traces.OnlyFirstFrameUntuned`).
  If segment 0 overflows the buffer, the mandatory flush resets with
  `m_state == 0`, and every later frame of segment 0 uses the content profile.
  `Scenarios.SplitBeforeFirstDeclaration` shows this.
- `writeData` flushes when `m_posIn + sz >= capacity` (1.cc:58), before
  copying. A write of fewer than `capacity` bytes therefore leaves the
  pending length strictly below capacity. A write of exactly `capacity`
  bytes fills the buffer completely, and the next write, even an empty one,
  closes it as a frame first. On an empty buffer that flush test already
  holds, so the context is retuned before the bytes are copied.
  `Scenarios.ExactCapacityWrite` shows this.
- The code has no error handling. Return codes of the compressor and of
  `fwrite` are ignored, so the model has no error path.

## Model

| member | source | states |
|---|---|---|
| Profiles.ResetZstdSession | 1.cc:33-43 | a full reset followed by the three parameter settings leaves exactly the profile-table entry for the segment's class: level 13 and strategy 6 for even indices, level 22 and strategy 9 for odd, always 2 workers, and no other parameter |
| Profiles.ResetDependsOnlyOnParity | 1.cc:33-43 | whatever was set on the context before, two resets give the same configuration if and only if their segment indices have the same parity |
| Profiles.ProfilesDistinct | 1.cc:35-41 | the header and content profiles differ, and neither equals an untouched default context |
| Profiles.ClassAlternates | 1.cc:35 | each further segment index switches between the header and content classes, and two steps return to the same class |
| Multiplexer.Open | 1.cc:8-24 | a new backend has both counters at 0, an empty buffer, no frames and a never-reset context, and satisfies the between-callbacks invariant |
| Multiplexer.ResetSession | 1.cc:33-43 | retuning installs the profile of the current segment's class and changes nothing else in the backend |
| Multiplexer.ChangeState | 1.cc:45-47 | declaring a boundary increases the declared counter by exactly one and changes nothing else: no frame, no buffer or context change |
| Multiplexer.ChangeStatePreservesInv | 1.cc:45-47 | declaring a boundary keeps the between-callbacks invariant |
| Multiplexer.IsStateChanged | 1.cc:49-55 | reports true if and only if a boundary is pending (applied < declared); in that case the applied counter jumps to the declared one, otherwise nothing changes |
| Multiplexer.TrackerProperties | 1.cc:45-55 | applied <= declared is kept by both tracker operations, consuming a boundary leaves none pending, and a second poll right after reports false |
| Multiplexer.FlushData | 1.cc:67-83 | an empty buffer emits no frame; a non-empty one emits exactly one frame, after all earlier ones, carrying the whole buffer and the parameters in force; afterwards the buffer is empty and the context is tuned for the current segment; counters and capacity are unchanged |
| Multiplexer.FlushDataConserves | 1.cc:67-83 | a flush loses, duplicates and reorders no byte: frames followed by the buffer spell the same stream before and after |
| Multiplexer.FlushDataPreservesInv | 1.cc:67-83 | a flush never writes an empty frame and leaves the context tuned for the current segment, so the invariant is kept |
| Multiplexer.FlushIdempotent | 1.cc:67-83 | flushing twice in a row has the same effect as flushing once |
| Multiplexer.WriteData | 1.cc:57-65 | a write that would bring the buffer to capacity first closes the pending bytes, if any, as one frame and retunes the context; the new buffer is the kept or emptied old buffer followed by the input; it never exceeds capacity, and it is full exactly when the write had `capacity` bytes |
| Multiplexer.WriteDataConserves | 1.cc:57-65 | ingesting appends exactly the written bytes, in order, to the stream spelled by frames followed by the buffer |
| Multiplexer.WriteDataPreservesInv | 1.cc:57-65 | ingesting keeps the invariant, so the buffer never holds more than capacity |
| Multiplexer.CbWrite | 1.cc:97-105 | a pending boundary or a full buffer closes the pending bytes, if any, as one frame under the old parameters and starts the buffer with the new bytes under parameters for the now-current segment; otherwise the bytes are appended with no output; afterwards no boundary is pending, and the buffer is at most capacity and full exactly when the write had `capacity` bytes |
| Multiplexer.CbWriteConserves | 1.cc:97-105 | a write adds exactly its bytes, in order, to the stream spelled by frames followed by the buffer |
| Multiplexer.CbWritePreservesInv | 1.cc:97-105 | a write keeps the invariant: after a boundary the context is retuned for the new segment before any of its bytes arrive |
| Multiplexer.CbClose | 1.cc:90-95 | close leaves nothing pending: the buffer becomes one last frame, or none if it is empty |
| Multiplexer.CbCloseConserves | 1.cc:90-95 | after close the frames alone spell everything that was pending or written before |
| Multiplexer.CbClosePreservesInv | 1.cc:90-95 | close keeps the invariant |
| Traces.RunPreservesInv | 1.cc:57-105 | over any run of declarations and writes: applied <= declared, buffer at most capacity, context tuned for the current segment (or never reset while in segment 0), and no empty frame |
| Traces.RunConserves | 1.cc:57-105 | over any run, the frame payloads in emission order followed by the pending buffer equal the earlier contents followed by every written byte in call order |
| Traces.RunAppendOnly | 1.cc:72-79 | frames already written are never changed or removed; output only grows at the end |
| Traces.DeclaresEmitNothing | 1.cc:45-55 | any number of declarations with no write in between emit nothing and change only the declared counter, so a boundary without a following write triggers no flush |
| Traces.DeclareThenWrite | 1.cc:97-105 | a declaration followed by a write, even while earlier declared segments got no write, closes the open frame under the parameters it was written with, jumps the applied counter to the newest segment, retunes for that segment's class, and starts its buffer with exactly the written bytes |
| Multiplexer.FlushDataDefaultsFirstOnly | 1.cc:67-83 | a flush never lets the untouched context compress any frame but the first: it retunes from the table, so once a frame is out the context is never the untouched one again |
| Multiplexer.CbWriteDefaultsFirstOnly | 1.cc:97-105 | a write keeps that property: the untouched context can only have been used by the session's first frame |
| Traces.RunDefaultsFirstOnly | 1.cc:57-105 | over any run of declarations and writes, no frame after the first was compressed by the untouched context |
| Traces.OnlyFirstFrameUntuned | 1.cc:20-24 | in every session, every frame after the first carries parameters set by a reset; only the first frame can have been compressed by the never-reset context of the constructor |
| Traces.SessionRoundTrip | 1.cc:90-105 | after open, any run and close: nothing is pending, no frame is empty, and the frames decode in order to exactly the bytes written |
| Alignment.TagMeaning | 1.cc:45-55 | the annotation of each write is the starting index plus the number of declarations made before it; declarations pass through unannotated |
| Alignment.RunExpected | 1.cc:45-47 | after any prefix of a run, the declared counter has grown by exactly the number of declarations in that prefix |
| Alignment.WriteSegment | 1.cc:97-105 | once a write has consumed any pending boundary, the applied counter equals the starting declared counter plus the declarations before that write, which is the write's annotation |
| Alignment.UntagRun | 1.cc:57-105 | annotating the bytes does not change the backend's behaviour: the annotated run with annotations dropped is the plain run |
| Alignment.CbWriteAligned | 1.cc:97-105 | a write whose bytes carry the declared segment index keeps alignment: the buffer holds only bytes of the current segment, and every frame holds bytes of a single segment under parameters fitting that segment, in nondecreasing segment order |
| Alignment.CbCloseAligned | 1.cc:90-95 | the final flush keeps the alignment invariant |
| Alignment.RunAligned | 1.cc:57-105 | alignment and the backend invariant hold across any annotated run |
| Alignment.SegmentAlignment | 1.cc:97-105 | in every session, no frame straddles a segment boundary; splits forced by a full buffer keep the same segment; segments appear in stream order; each frame of segment k >= 1 is compressed under the profile of k's class, and a frame of segment 0 under the content profile or the default context |
| Scenarios.EntryFrames | 1.cc:127-132 | one entry, announced before its header and before its content, closes the open frame, gives the header its own frame under the header profile and leaves the content pending under the content profile |
| Scenarios.TwoEntryRun | 1.cc:127-147 | two entries written into a fresh backend close the first header, first content and second header as frames under their own profiles and leave the second content pending under the content profile, with both counters at 4 |
| Scenarios.TwoEntryArchive | 1.cc:127-148 | for any buffer size, two entries, each announced before its header and before its content, each part non-empty and delivered in one write, close with exactly four frames alternating header and content profiles, decoding to the written bytes in order |
| Scenarios.DriverArchive | 1.cc:127-155 | the driver's run of two entries, then one more declaration before the archive is freed and the end-of-archive trailer is written, closes with five frames: the four of the entries and a fifth holding the trailer under the header profile, since the trailer opens odd segment 5; they decode to all written bytes in order |
| Scenarios.ExactCapacityWrite | 1.cc:57-65 | a write of exactly capacity bytes fills the buffer after retuning the context, and the next write, even an empty one, closes the full buffer as a frame |
| Scenarios.EmptyThenExactCapacity | 1.cc:57-69 | an empty write leaves the backend unchanged, and a following write of exactly capacity bytes still retunes the context first, so the session's only frame uses the content profile rather than the untouched context |
| Scenarios.SplitBeforeFirstDeclaration | 1.cc:57-60 | bytes written before any declaration that overflow the buffer give a first frame under the default context and a second under the content profile |
| Scenarios.DeclareThenClose | 1.cc:90-95 | a boundary declared right before close is never consumed: close flushes the open frame under its own profile |

## Left out

- The compressor itself: `ZSTD_compressStream2`, the drain loop, the output
  buffer and its size (1.cc:72-79). These are calls into zstd. A flush is
  modelled as one frame carrying its payload and parameters. Session state
  inside the context is not modelled, only its parameters.
- The concrete value of `ZSTD_CStreamInSize()`. Capacity is any positive
  number, fixed when the backend is opened.
- File I/O (`fopen`, `fwrite`, `fclose`), `printf` logging, buffer allocation
  and the destructor. These are I/O and resource handling. The output file is
  the frame sequence `out`.
- `cbOpen` and `main`. `cbOpen` only returns `ARCHIVE_OK`. `main` is the
  libarchive driver, and the pax header, padding and trailer bytes the archive
  library emits are outside this model. `Traces.Event` stands for the calls
  the driver makes.
- The return value of `cbWrite`. It is always the full `length`, so it carries
  no information.
- Writes of more than `capacity` bytes. In the code they overrun the buffer
  in `memcpy`, which is undefined behaviour. They are a precondition
  (`|data| <= capacity`), not an error path.
- Scenarios.TwoEntryArchive: each header and each content is taken to arrive
  in one `cbWrite` call. The archive library may split a header across
  several calls. It writes block padding after each content, and that
  padding lands in the content segment already open; the scenario leaves it
  out. The final declaration and the trailer (1.cc:154-155) are also outside
  this scenario; `Scenarios.DriverArchive` adds them.
- Scenarios.DriverArchive: the headers, each content with its padding, and
  the trailer are each taken to arrive in one `cbWrite` call. Their byte
  counts come from the archive library, which is not part of this model, so
  they are left as parameters.
- `nbWorkers` parallelism. Only the parameter value 2 is recorded. The threads
  live inside zstd.
- Multiplexer.ChangeState: the counters are unbounded naturals. The code's
  `int` would overflow after 2^31 declarations, which is undefined behaviour
  the code does not guard against.
- Error handling. The code checks no return code of zstd or `fwrite`. The
  model therefore has no sink or compressor failures. Nothing in the code
  rejects a write or a declaration after close either, so the model does not
  have a closed state.

=== FILE: alignment.dfy ===
/** Segment alignment of frames.

    Every written byte is annotated with the segment index it was written
    under: the number of declarations made before its `cbWrite` call. The
    backend is run unchanged on the annotated stream; dropping the
    annotations from that run gives exactly the plain run, and in the
    annotated run every frame carries bytes of a single segment, with
    segments in stream order. A frame of segment k >= 1 is compressed under
    the profile of k; a frame of segment 0 under the content profile or, as
    the backend is never reset before its first flush, the untouched
    context. */
module Alignment {
  import opened Profiles
  import opened Multiplexer
  import opened Traces

  /** Annotate every byte of one write with segment `k`. */
  function TagBytes<B>(d: seq<B>, k: nat): (r: seq<(B, nat)>)
    ensures |r| == |d|
    ensures forall j :: 0 <= j < |r| ==> r[j] == (d[j], k)
  {
    seq(|d|, j requires 0 <= j < |d| => (d[j], k))
  }

  /** Annotate every write of `t` with `k` plus the declarations before it. */
  function Tag<B>(t: seq<Event<B>>, k: nat): (r: seq<Event<(B, nat)>>)
    ensures |r| == |t|
  {
    if |t| == 0 then []
    else match t[0]
      case Declare => [Declare] + Tag(t[1..], k + 1)
      case Write(d) => [Write(TagBytes(d, k))] + Tag(t[1..], k)
  }

  /** Number of declarations among the first `i` calls of `t`. */
  function DeclaredBefore<B>(t: seq<Event<B>>, i: nat): nat
    requires i <= |t|
  {
    if i == 0 then 0 else DeclaredBefore(t, i - 1) + (if t[i - 1].Declare? then 1 else 0)
  }

  /** The annotation of each write is its segment index: `k` plus the
      declarations before it. Declarations are left as they are. */
  lemma {:induction false} TagMeaning<B>(t: seq<Event<B>>, k: nat, i: nat)
    requires i < |t|
    ensures t[i].Declare? ==> Tag(t, k)[i] == Declare
    ensures t[i].Write? ==> Tag(t, k)[i] == Write(TagBytes(t[i].data, k + DeclaredBefore(t, i)))
    decreases i
  {
    if i > 0 {
      var k' := if t[0].Declare? then k + 1 else k;
      assert Tag(t, k)[i] == Tag(t[1..], k')[i - 1];
      TagMeaning(t[1..], k', i - 1);
      DeclaredBeforeTail(t, i);
    }
  }

  lemma {:induction false} DeclaredBeforeTail<B>(t: seq<Event<B>>, i: nat)
    requires 0 < i <= |t|
    ensures DeclaredBefore(t, i) == (if t[0].Declare? then 1 else 0) + DeclaredBefore(t[1..], i - 1)
    decreases i
  {
    if i > 1 {
      DeclaredBeforeTail(t, i - 1);
    }
  }

  /** Running the first `i` calls raises the declared counter by exactly the
      declarations among them. */
  lemma {:induction false} RunExpected<B>(m: Mux<B>, t: seq<Event<B>>, i: nat)
    requires Fits(t, m.capacity) && i <= |t|
    ensures Fits(t[..i], m.capacity)
    ensures Run(m, t[..i]).expected == m.expected + DeclaredBefore(t, i)
    decreases i
  {
    if i > 0 {
      var p, e := t[..i - 1], t[i - 1];
      RunExpected(m, t, i - 1);
      RunSnoc(m, p, e);
      assert t[..i] == p + [e];
    }
  }

  /** A write's annotation is the segment it really lands in: once the write
      has consumed any pending boundary, the applied counter equals `k` plus
      the declarations before the write. */
  lemma WriteSegment<B>(m: Mux<B>, t: seq<Event<B>>, i: nat)
    requires Inv(m) && Fits(t, m.capacity) && i < |t| && t[i].Write?
    ensures Fits(t[..i + 1], m.capacity)
    ensures Run(m, t[..i + 1]).state == m.expected + DeclaredBefore(t, i)
  {
    var p, e := t[..i], t[i];
    RunExpected(m, t, i);
    var before := Run(m, p);
    RunPreservesInv(m, p);
    assert before.state <= before.expected == m.expected + DeclaredBefore(t, i);
    RunSnoc(m, p, e);
    assert t[..i + 1] == p + [e];
    assert Run(m, t[..i + 1]) == CbWrite(before, e.data);
  }

  function Untag<B>(s: seq<(B, nat)>): (r: seq<B>)
    ensures |r| == |s|
    ensures forall j :: 0 <= j < |s| ==> r[j] == s[j].0
  {
    seq(|s|, j requires 0 <= j < |s| => s[j].0)
  }

  function UntagFrame<B>(f: Frame<(B, nat)>): Frame<B> {
    Frame(Untag(f.payload), f.config)
  }

  function UntagFrames<B>(fs: seq<Frame<(B, nat)>>): (r: seq<Frame<B>>)
    ensures |r| == |fs|
    ensures forall i :: 0 <= i < |fs| ==> r[i] == UntagFrame(fs[i])
  {
    seq(|fs|, i requires 0 <= i < |fs| => UntagFrame(fs[i]))
  }

  function UntagMux<B>(m: Mux<(B, nat)>): Mux<B> {
    Mux(m.state, m.expected, m.capacity, Untag(m.buf), m.ctx, UntagFrames(m.out))
  }

  function UntagEvent<B>(e: Event<(B, nat)>): Event<B> {
    match e
    case Declare => Declare
    case Write(d) => Write(Untag(d))
  }

  function UntagEvents<B>(t: seq<Event<(B, nat)>>): (r: seq<Event<B>>)
    ensures |r| == |t|
    ensures forall i :: 0 <= i < |t| ==> r[i] == UntagEvent(t[i])
  {
    seq(|t|, i requires 0 <= i < |t| => UntagEvent(t[i]))
  }

  /** Dropping the annotations of an annotated run gives back the run. */
  lemma UntagTag<B>(t: seq<Event<B>>, k: nat)
    ensures UntagEvents(Tag(t, k)) == t
  {
    forall i | 0 <= i < |t|
      ensures UntagEvents(Tag(t, k))[i] == t[i]
    {
      TagMeaning(t, k, i);
      if t[i].Write? {
        assert Untag(TagBytes(t[i].data, k + DeclaredBefore(t, i))) == t[i].data;
      }
    }
  }

  lemma UntagFramesEmit<B>(fs: seq<Frame<(B, nat)>>, buf: seq<(B, nat)>, ctx: Params)
    ensures UntagFrames(fs + Emit(buf, ctx)) == UntagFrames(fs) + Emit(Untag(buf), ctx)
  {
  }

  /** One call commutes with dropping the annotations. */
  lemma UntagStep<B>(m: Mux<(B, nat)>, e: Event<(B, nat)>)
    requires e.Write? ==> |e.data| <= m.capacity
    ensures UntagMux(Step(m, e)) == Step(UntagMux(m), UntagEvent(e))
  {
    match e
    case Declare =>
    case Write(d) =>
      UntagFramesEmit(m.out, m.buf, m.ctx);
      assert Untag(m.buf + d) == Untag(m.buf) + Untag(d);
  }

  /** A whole run commutes with dropping the annotations. */
  lemma {:induction false} UntagRun<B>(m: Mux<(B, nat)>, t: seq<Event<(B, nat)>>)
    requires Fits(t, m.capacity)
    ensures Fits(UntagEvents(t), m.capacity)
    ensures UntagMux(Run(m, t)) == Run(UntagMux(m), UntagEvents(t))
    decreases |t|
  {
    if |t| > 0 {
      UntagStep(m, t[0]);
      UntagRun(Step(m, t[0]), t[1..]);
      assert UntagEvents(t)[1..] == UntagEvents(t[1..]);
    }
  }

  /** The segment a frame's bytes belong to, read off its first byte. */
  function SegmentOf<B>(f: Frame<(B, nat)>): nat {
    if |f.payload| == 0 then 0 else f.payload[0].1
  }

  /** Every byte of `s` was written under segment `k`. */
  predicate AllIn<B>(s: seq<(B, nat)>, k: nat) {
    forall j :: 0 <= j < |s| ==> s[j].1 == k
  }

  /** A frame holds bytes of one segment only, compressed under that segment's parameters. */
  predicate FrameAligned<B>(f: Frame<(B, nat)>) {
    AllIn(f.payload, SegmentOf(f)) && ConfigFits(f.config, SegmentOf(f))
  }

  /** The alignment invariant of an annotated run. */
  predicate Aligned<B>(m: Mux<(B, nat)>) {
    && AllIn(m.buf, m.state)
    && (forall i :: 0 <= i < |m.out| ==> FrameAligned(m.out[i]) && SegmentOf(m.out[i]) <= m.state)
    && (forall i, j :: 0 <= i < j < |m.out| ==> SegmentOf(m.out[i]) <= SegmentOf(m.out[j]))
  }

  /** Closing the buffer as a frame keeps alignment: the buffer holds bytes
      of segment `k` and the context fits `k`. */
  lemma AlignedAfterEmit<B>(m: Mux<(B, nat)>, k: nat, out': seq<Frame<(B, nat)>>)
    requires Aligned(m) && ConfigFits(m.ctx, m.state)
    requires out' == m.out + Emit(m.buf, m.ctx)
    requires m.state <= k
    ensures forall i :: 0 <= i < |out'| ==> FrameAligned(out'[i]) && SegmentOf(out'[i]) <= k
    ensures forall i, j :: 0 <= i < j < |out'| ==> SegmentOf(out'[i]) <= SegmentOf(out'[j])
  {
    if |m.buf| > 0 {
      assert SegmentOf(out'[|m.out|]) == m.state;
    }
  }

  /** A write annotated with the declared index keeps the run aligned. */
  lemma CbWriteAligned<B>(m: Mux<(B, nat)>, d: seq<B>, k: nat)
    requires Inv(m) && Aligned(m) && k == m.expected && |d| <= m.capacity
    ensures Aligned(CbWrite(m, TagBytes(d, k)))
  {
    var r := CbWrite(m, TagBytes(d, k));
    if m.state < m.expected || |m.buf| + |d| >= m.capacity {
      AlignedAfterEmit(m, r.state, r.out);
    }
  }

  /** Closing keeps the run aligned. */
  lemma CbCloseAligned<B>(m: Mux<(B, nat)>)
    requires Inv(m) && Aligned(m)
    ensures Aligned(CbClose(m))
  {
    AlignedAfterEmit(m, m.state, CbClose(m).out);
  }

  /** An annotated run from an aligned state stays aligned. */
  lemma {:induction false} RunAligned<B>(m: Mux<(B, nat)>, t: seq<Event<B>>, k: nat)
    requires Inv(m) && Aligned(m) && k == m.expected && Fits(t, m.capacity)
    ensures Fits(Tag(t, k), m.capacity)
    ensures Inv(Run(m, Tag(t, k))) && Aligned(Run(m, Tag(t, k)))
    decreases |t|
  {
    if |t| > 0 {
      var tt := Tag(t, k);
      var k' := if t[0].Declare? then k + 1 else k;
      assert tt[1..] == Tag(t[1..], k');
      if t[0].Write? {
        CbWriteAligned(m, t[0].data, k);
        CbWritePreservesInv(m, TagBytes(t[0].data, k));
      } else {
        ChangeStatePreservesInv(m);
      }
      var next := Step(m, tt[0]);
      assert Fits(t[1..], next.capacity) by {
        forall i | 0 <= i < |t[1..]| && t[1..][i].Write?
          ensures |t[1..][i].data| <= next.capacity
        {
          assert t[1..][i] == t[i + 1];
        }
      }
      RunAligned(next, t[1..], k');
      forall i | 0 <= i < |tt| && tt[i].Write?
        ensures |tt[i].data| <= m.capacity
      {
        if i > 0 {
          assert tt[i] == Tag(t[1..], k')[i - 1];
        }
      }
    }
  }

  /** Segment alignment of a whole session, stated over the plain run: its
      frames are those of the annotated run with annotations dropped, and in
      the annotated run every frame is non-empty and holds bytes of a single
      segment, segments appear in nondecreasing order, each frame of a
      segment k >= 1 uses the profile of k, and a frame of segment 0 uses
      either that profile or the never-reset context. */
  lemma SegmentAlignment<B>(capacity: nat, t: seq<Event<B>>)
    requires 0 < capacity && Fits(t, capacity)
    ensures Fits(Tag(t, 0), capacity)
    ensures UntagMux(Session(capacity, Tag(t, 0))) == Session(capacity, t)
    ensures var fs := Session(capacity, Tag(t, 0)).out;
      && Payloads(fs) == Written(Tag(t, 0))
      && (forall i :: 0 <= i < |fs| ==> |fs[i].payload| > 0 && AllIn(fs[i].payload, SegmentOf(fs[i])))
      && (forall i :: 0 <= i < |fs| && SegmentOf(fs[i]) > 0 ==>
            fs[i].config == Profile(ClassOf(SegmentOf(fs[i]))))
      && (forall i :: 0 <= i < |fs| && SegmentOf(fs[i]) == 0 ==>
            fs[i].config == Profile(Content) || fs[i].config == Defaults)
      && (forall i, j :: 0 <= i < j < |fs| ==> SegmentOf(fs[i]) <= SegmentOf(fs[j]))
  {
    var m0 := Open<(B, nat)>(capacity);
    RunAligned(m0, t, 0);
    var tt := Tag(t, 0);
    var mr := Run(m0, tt);
    CbCloseAligned(mr);
    SessionRoundTrip(capacity, tt);
    UntagRun(m0, tt);
    UntagTag(t, 0);
    assert UntagMux(m0) == Open<B>(capacity);
    assert UntagMux(CbClose(mr)) == CbClose(UntagMux(mr)) by {
      UntagFramesEmit(mr.out, mr.buf, mr.ctx);
    }
  }
}

=== FILE: multiplexer.dfy ===
/** The segment-aware frame multiplexer of 1.cc (struct `ABC`, with the
    `cbWrite` and `cbClose` callbacks that drive it), as an immutable state
    and pure transitions.

    The state is generic in the element type `T` of the byte stream, so the
    same machine can also be run on bytes annotated with extra information
    (see module Alignment). The compressor is abstract: draining the input
    buffer to the end of a frame is the atomic emission of one `Frame`
    carrying the whole buffer and the context parameters in force. */
module Multiplexer {
  import opened Profiles

  /** One byte of the archive stream (`char` in the source). */
  newtype Byte = b: int | 0 <= b < 256

  /** A closed compressed frame: the bytes it encodes and the parameters it was compressed under. */
  datatype Frame<T> = Frame(payload: seq<T>, config: Params)

  /** The backend's state.
      - `state`: segment index the context was last configured for (`m_state`)
      - `expected`: segment index last declared by the caller (`m_expected`)
      - `capacity`: size of the input buffer (`m_szBufIn`)
      - `buf`: pending input bytes, `m_bufIn[0..m_posIn)`
      - `ctx`: parameters currently set on the compression context
      - `out`: every frame written to the output file so far, in order */
  datatype Mux<T> = Mux(
    state: nat,
    expected: nat,
    capacity: nat,
    buf: seq<T>,
    ctx: Params,
    out: seq<Frame<T>>)

  /** The bytes encoded by a sequence of frames, concatenated in order. */
  function Payloads<T>(fs: seq<Frame<T>>): seq<T> {
    if |fs| == 0 then [] else Payloads(fs[..|fs| - 1]) + fs[|fs| - 1].payload
  }

  /** The frames a flush of `buf` under `ctx` writes: none for an empty buffer. */
  function Emit<T>(buf: seq<T>, ctx: Params): seq<Frame<T>> {
    if |buf| == 0 then [] else [Frame(buf, ctx)]
  }

  /** The context is tuned for segment `k`, or it is the never-reset context of segment 0. */
  predicate ConfigFits(ctx: Params, k: nat) {
    ctx == Profile(ClassOf(k)) || (k == 0 && ctx == Defaults)
  }

  /** What holds between any two callbacks. */
  predicate Inv<T>(m: Mux<T>) {
    && 0 < m.capacity
    && m.state <= m.expected
    && |m.buf| <= m.capacity
    && ConfigFits(m.ctx, m.state)
    && forall i :: 0 <= i < |m.out| ==> |m.out[i].payload| > 0
  }

  lemma {:induction false} PayloadsAppend<T>(fs: seq<Frame<T>>, gs: seq<Frame<T>>)
    ensures Payloads(fs + gs) == Payloads(fs) + Payloads(gs)
    decreases |gs|
  {
    if |gs| == 0 {
      assert fs + gs == fs;
    } else {
      var init := gs[..|gs| - 1];
      assert (fs + gs)[..|fs + gs| - 1] == fs + init;
      PayloadsAppend(fs, init);
    }
  }

  /** Emitting a flush adds exactly the flushed buffer to the encoded stream. */
  lemma PayloadsEmit<T>(fs: seq<Frame<T>>, buf: seq<T>, ctx: Params)
    ensures Payloads(fs + Emit(buf, ctx)) == Payloads(fs) + buf
  {
    PayloadsAppend(fs, Emit(buf, ctx));
    if |buf| > 0 {
      assert Emit(buf, ctx)[..0] == [];
    }
  }

  /** The constructor: empty buffer, counters at 0, a fresh untuned context, no output. */
  function Open<T>(capacity: nat): (m: Mux<T>)
    requires 0 < capacity
    ensures Inv(m)
    ensures m.state == 0 && m.expected == 0 && m.capacity == capacity
    ensures m.buf == [] && m.out == [] && m.ctx == Defaults
  {
    Mux(0, 0, capacity, [], Defaults, [])
  }

  /** `resetZstdSession`: retune the context for the current segment. */
  function ResetSession<T>(m: Mux<T>): (r: Mux<T>)
    ensures r.ctx == Profile(ClassOf(m.state))
    ensures r.(ctx := m.ctx) == m
  {
    m.(ctx := ResetZstdSession(m.ctx, m.state))
  }

  /** `changeState`: declare one more segment boundary; nothing is flushed. */
  function ChangeState<T>(m: Mux<T>): (r: Mux<T>)
    ensures r.expected == m.expected + 1
    ensures r.(expected := m.expected) == m
  {
    m.(expected := m.expected + 1)
  }

  /** `isStateChanged`: consume a pending boundary, reporting whether there was one. */
  function IsStateChanged<T>(m: Mux<T>): (r: (bool, Mux<T>))
    ensures r.0 <==> m.state < m.expected
    ensures r.0 ==> r.1 == m.(state := m.expected)
    ensures !r.0 ==> r.1 == m
  {
    if m.state < m.expected then (true, m.(state := m.expected)) else (false, m)
  }

  /** Both tracker operations keep the applied index at or below the declared one,
      and a boundary is consumed exactly once. */
  lemma TrackerProperties<T>(m: Mux<T>)
    requires m.state <= m.expected
    ensures ChangeState(m).state <= ChangeState(m).expected
    ensures IsStateChanged(m).1.state == IsStateChanged(m).1.expected
    ensures !IsStateChanged(IsStateChanged(m).1).0
  {
  }

  /** `flushData`: close the whole buffer into one frame (none if it is empty),
      then retune the context for the current segment and empty the buffer. */
  function FlushData<T>(m: Mux<T>): (r: Mux<T>)
    ensures r.out == m.out + Emit(m.buf, m.ctx)
    ensures |m.buf| == 0 ==> r.out == m.out
    ensures |m.buf| > 0 ==> r.out == m.out + [Frame(m.buf, m.ctx)]
    ensures r.buf == []
    ensures r.ctx == Profile(ClassOf(m.state))
    ensures r.state == m.state && r.expected == m.expected && r.capacity == m.capacity
  {
    if |m.buf| == 0 then
      ResetSession(m)
    else
      var written := m.(out := m.out + [Frame(m.buf, m.ctx)]);
      ResetSession(written).(buf := [])
  }

  /** Flushing twice is flushing once: the second flush writes nothing and
      installs the same parameters. */
  lemma FlushIdempotent<T>(m: Mux<T>)
    ensures FlushData(FlushData(m)) == FlushData(m)
  {
  }

  /** `writeData`: flush first if the bytes would bring the buffer to
      capacity, then append them after the pending bytes. A write of more
      than `capacity` bytes overruns the buffer and is excluded. */
  function WriteData<T>(m: Mux<T>, data: seq<T>): (r: Mux<T>)
    requires |data| <= m.capacity
    ensures |m.buf| + |data| >= m.capacity ==>
      r.buf == data && r.out == m.out + Emit(m.buf, m.ctx) && r.ctx == Profile(ClassOf(m.state))
    ensures |m.buf| + |data| < m.capacity ==>
      r.buf == m.buf + data && r.out == m.out && r.ctx == m.ctx
    ensures |r.buf| <= r.capacity
    ensures |r.buf| == r.capacity <==> |data| == m.capacity
    ensures r.state == m.state && r.expected == m.expected && r.capacity == m.capacity
  {
    var flushed := if |m.buf| + |data| >= m.capacity then FlushData(m) else m;
    flushed.(buf := flushed.buf + data)
  }

  /** `cbWrite`: a pending segment boundary closes the open frame before the
      new bytes are ingested; otherwise the bytes join the open frame unless
      they would bring the buffer to capacity. */
  function CbWrite<T>(m: Mux<T>, data: seq<T>): (r: Mux<T>)
    requires |data| <= m.capacity
    ensures r.state == (if m.state < m.expected then m.expected else m.state)
    ensures r.expected == m.expected && r.capacity == m.capacity
    ensures m.state < m.expected || |m.buf| + |data| >= m.capacity ==>
      && r.buf == data
      && r.out == m.out + Emit(m.buf, m.ctx)
      && r.ctx == Profile(ClassOf(r.state))
    ensures !(m.state < m.expected || |m.buf| + |data| >= m.capacity) ==>
      r.buf == m.buf + data && r.out == m.out && r.ctx == m.ctx
    ensures |r.buf| <= r.capacity
    ensures |r.buf| == r.capacity <==> |data| == m.capacity
  {
    var polled := IsStateChanged(m);
    if polled.0 then
      WriteData(FlushData(polled.1), data)
    else
      WriteData(polled.1, data)
  }

  /** Declaring a boundary keeps the between-callbacks invariant. */
  lemma ChangeStatePreservesInv<T>(m: Mux<T>)
    requires Inv(m)
    ensures Inv(ChangeState(m))
  {
  }

  /** A flush keeps the invariant: it never writes an empty frame, and it
      leaves the context tuned for the current segment. */
  lemma FlushDataPreservesInv<T>(m: Mux<T>)
    requires Inv(m)
    ensures Inv(FlushData(m))
  {
  }

  /** Ingesting keeps the invariant; in particular the buffer never holds
      more than `capacity` bytes. */
  lemma WriteDataPreservesInv<T>(m: Mux<T>, data: seq<T>)
    requires Inv(m) && |data| <= m.capacity
    ensures Inv(WriteData(m, data))
  {
    if |m.buf| + |data| >= m.capacity {
      FlushDataPreservesInv(m);
    }
  }

  /** A write keeps the between-callbacks invariant: after a boundary the
      context is retuned for the new segment before any of its bytes arrive. */
  lemma CbWritePreservesInv<T>(m: Mux<T>, data: seq<T>)
    requires Inv(m) && |data| <= m.capacity
    ensures Inv(CbWrite(m, data))
  {
    var polled := IsStateChanged(m);
    if polled.0 {
      var flushed := FlushData(polled.1);
      assert flushed.out == m.out + Emit(m.buf, m.ctx);
      assert ConfigFits(flushed.ctx, flushed.state);
      assert Inv(flushed);
      WriteDataPreservesInv(flushed, data);
    } else {
      WriteDataPreservesInv(m, data);
    }
  }

  /** Closing keeps the invariant. */
  lemma CbClosePreservesInv<T>(m: Mux<T>)
    requires Inv(m)
    ensures Inv(CbClose(m))
  {
    FlushDataPreservesInv(m);
  }

  /** `cbClose`: flush unconditionally, leaving nothing pending. */
  function CbClose<T>(m: Mux<T>): (r: Mux<T>)
    ensures r.buf == []
    ensures r.out == m.out + Emit(m.buf, m.ctx)
  {
    FlushData(m)
  }

  /** The untouched context can only have compressed the first frame: once a
      frame is out, the context has been reset, and no later frame uses it. */
  predicate DefaultsFirstOnly<T>(m: Mux<T>) {
    && (m.ctx == Defaults ==> |m.out| == 0)
    && forall i :: 0 < i < |m.out| ==> m.out[i].config != Defaults
  }

  /** Closing the buffer as a frame, then retuning, keeps `DefaultsFirstOnly`. */
  lemma FlushDataDefaultsFirstOnly<T>(m: Mux<T>)
    requires DefaultsFirstOnly(m)
    ensures DefaultsFirstOnly(FlushData(m))
  {
    ProfilesDistinct();
    ClassAlternates(m.state);
  }

  /** A write keeps `DefaultsFirstOnly`. */
  lemma CbWriteDefaultsFirstOnly<T>(m: Mux<T>, data: seq<T>)
    requires DefaultsFirstOnly(m) && |data| <= m.capacity
    ensures DefaultsFirstOnly(CbWrite(m, data))
  {
    var polled := IsStateChanged(m);
    if polled.0 {
      FlushDataDefaultsFirstOnly(polled.1);
      var flushed := FlushData(polled.1);
      if |flushed.buf| + |data| >= flushed.capacity {
        FlushDataDefaultsFirstOnly(flushed);
      }
    } else if |m.buf| + |data| >= m.capacity {
      FlushDataDefaultsFirstOnly(m);
    }
  }

  /** A flush loses, duplicates and reorders nothing: frames followed by the
      buffer spell the same stream before and after. */
  lemma FlushDataConserves<T>(m: Mux<T>)
    ensures Payloads(FlushData(m).out) + FlushData(m).buf == Payloads(m.out) + m.buf
  {
    PayloadsEmit(m.out, m.buf, m.ctx);
  }

  /** Ingesting appends exactly the written bytes to the stream spelled by
      frames followed by the buffer, whether or not a flush came first. */
  lemma WriteDataConserves<T>(m: Mux<T>, data: seq<T>)
    requires |data| <= m.capacity
    ensures Payloads(WriteData(m, data).out) + WriteData(m, data).buf == Payloads(m.out) + m.buf + data
  {
    if |m.buf| + |data| >= m.capacity {
      FlushDataConserves(m);
    }
  }

  /** A write appends exactly its bytes to the stream spelled by frames
      followed by the buffer. */
  lemma CbWriteConserves<T>(m: Mux<T>, data: seq<T>)
    requires |data| <= m.capacity
    ensures Payloads(CbWrite(m, data).out) + CbWrite(m, data).buf == Payloads(m.out) + m.buf + data
  {
    var polled := IsStateChanged(m);
    if polled.0 {
      FlushDataConserves(polled.1);
      WriteDataConserves(FlushData(polled.1), data);
    } else {
      WriteDataConserves(polled.1, data);
    }
  }

  /** After close the frames alone spell the whole stream. */
  lemma CbCloseConserves<T>(m: Mux<T>)
    ensures CbClose(m).buf == []
    ensures Payloads(CbClose(m).out) == Payloads(m.out) + m.buf
  {
    FlushDataConserves(m);
  }
}

=== FILE: profiles.dfy ===
/** The compression profile table and the reset that installs a profile on a
    compression context (`resetZstdSession` in 1.cc).

    A context is modelled by the parameters explicitly set on it: a key that
    is absent is at the compression library's default. A freshly created
    context has no explicit parameters. */
module Profiles {

  /** The three parameters the backend tunes. */
  datatype Param = CompressionLevel | Strategy | NbWorkers

  /** Explicitly set parameters of a context; absent keys are library defaults. */
  type Params = map<Param, int>

  /** A freshly created context, before any reset. */
  const Defaults: Params := map[]

  /** The kind of segment a profile is tuned for. */
  datatype SegmentClass = Content | Header

  /** Segment class of a segment index: even indices are content, odd ones headers. */
  function ClassOf(state: nat): SegmentClass {
    if state % 2 == 0 then Content else Header
  }

  /** The profile table: the parameters a reset must leave on the context. */
  function Profile(c: SegmentClass): Params {
    match c
    case Content => map[CompressionLevel := 13, Strategy := 6, NbWorkers := 2]
    case Header => map[CompressionLevel := 22, Strategy := 9, NbWorkers := 2]
  }

  /** Setting one parameter overrides that parameter and leaves the others alone. */
  function SetParameter(p: Params, k: Param, v: int): (r: Params)
    ensures k in r && r[k] == v
    ensures forall q :: q != k ==> (q in r <==> q in p)
    ensures forall q :: q in p && q != k ==> r[q] == p[q]
  {
    p[k := v]
  }

  /** Resetting session and parameters returns every parameter to its default. */
  function ResetSessionAndParameters(p: Params): Params {
    Defaults
  }

  /** Reset the context, then tune it for the class of segment `state`. */
  function ResetZstdSession(p: Params, state: nat): (r: Params)
    ensures r == Profile(ClassOf(state))
    ensures r.Keys == {CompressionLevel, Strategy, NbWorkers}
    ensures r[NbWorkers] == 2
    ensures state % 2 == 0 ==> r[CompressionLevel] == 13 && r[Strategy] == 6
    ensures state % 2 == 1 ==> r[CompressionLevel] == 22 && r[Strategy] == 9
  {
    var cleared := ResetSessionAndParameters(p);
    var tuned :=
      if state % 2 == 0 then
        SetParameter(SetParameter(cleared, CompressionLevel, 13), Strategy, 6)
      else
        SetParameter(SetParameter(cleared, CompressionLevel, 22), Strategy, 9);
    SetParameter(tuned, NbWorkers, 2)
  }

  /** The two profiles differ, and neither is the untouched default context. */
  lemma ProfilesDistinct()
    ensures Profile(Content) != Profile(Header)
    ensures Profile(Content) != Defaults && Profile(Header) != Defaults
  {
    assert Profile(Content)[CompressionLevel] != Profile(Header)[CompressionLevel];
    assert CompressionLevel in Profile(Content) && CompressionLevel in Profile(Header);
  }

  /** Classes alternate: each further segment index flips the class. */
  lemma ClassAlternates(n: nat)
    ensures ClassOf(n + 1) != ClassOf(n)
    ensures ClassOf(n + 2) == ClassOf(n)
  {
  }

  /** A reset forgets everything set before it, and two resets agree exactly
      when their segment indices have the same parity. */
  lemma ResetDependsOnlyOnParity(p1: Params, p2: Params, s1: nat, s2: nat)
    ensures ResetZstdSession(p1, s1) == ResetZstdSession(p2, s2) <==> s1 % 2 == s2 % 2
  {
    ProfilesDistinct();
  }
}

=== FILE: scenarios.dfy ===
/** Concrete runs of the backend. */
module Scenarios {
  import opened Profiles
  import opened Multiplexer
  import opened Traces

  /** The calls for one archive entry: a declaration before its header and
      another before its content. */
  function Entry(header: seq<Byte>, content: seq<Byte>): seq<Event<Byte>> {
    [Declare, Write(header)] + [Declare, Write(content)]
  }

  /** One entry written into a backend at a content segment: the open frame is
      closed, the header gets its own frame under the header profile, and the
      content is left pending under the content profile. */
  lemma EntryFrames(m: Mux<Byte>, header: seq<Byte>, content: seq<Byte>)
    requires m.state == m.expected && ClassOf(m.state) == Content
    requires 0 < |header| <= m.capacity && |content| <= m.capacity
    ensures Fits(Entry(header, content), m.capacity)
    ensures var r := Run(m, Entry(header, content));
      && r.out == m.out + Emit(m.buf, m.ctx) + [Frame(header, Profile(Header))]
      && r.buf == content && r.ctx == Profile(Content)
      && r.state == m.state + 2 && r.expected == m.expected + 2
  {
    ClassAlternates(m.state);
    assert ClassOf(m.state + 1) == Header && ClassOf(m.state + 2) == Content;
    var m1 := Run(m, [Declare, Write(header)]);
    DeclareThenWrite(m, header);
    assert m1.out == m.out + Emit(m.buf, m.ctx) && m1.buf == header;
    assert m1.ctx == Profile(Header) && m1.state == m1.expected == m.state + 1;
    var m2 := Run(m1, [Declare, Write(content)]);
    DeclareThenWrite(m1, content);
    assert m2.out == m1.out + Emit(m1.buf, m1.ctx) && m2.buf == content;
    assert m2.ctx == Profile(Content) && m2.state == m2.expected == m.state + 2;
    assert Emit(m1.buf, m1.ctx) == [Frame(header, Profile(Header))];
    RunConcat(m, [Declare, Write(header)], [Declare, Write(content)]);
  }

  /** The bytes encoded by four frames. */
  lemma FourPayloads(f1: Frame<Byte>, f2: Frame<Byte>, f3: Frame<Byte>, f4: Frame<Byte>)
    ensures Payloads([f1, f2, f3, f4]) == f1.payload + f2.payload + f3.payload + f4.payload
  {
    var fs := [f1, f2, f3, f4];
    var p1, p2, p3 := [f1], [f1, f2], [f1, f2, f3];
    assert p1[..0] == [] && p2[..1] == p1 && p3[..2] == p2 && fs[..3] == p3;
    assert Payloads(p1) == f1.payload;
    assert Payloads(p2) == Payloads(p1) + f2.payload;
    assert Payloads(p3) == Payloads(p2) + f3.payload;
    assert Payloads(fs) == Payloads(p3) + f4.payload;
  }

  /** Two entries written into a fresh backend: three frames are closed and
      the second content is left pending under the content profile. */
  lemma TwoEntryRun(cap: nat, h1: seq<Byte>, c1: seq<Byte>, h2: seq<Byte>, c2: seq<Byte>)
    requires 0 < |h1| <= cap && 0 < |c1| <= cap && 0 < |h2| <= cap && |c2| <= cap
    ensures Fits(Entry(h1, c1) + Entry(h2, c2), cap)
    ensures Run(Open(cap), Entry(h1, c1) + Entry(h2, c2)) == Mux(4, 4, cap, c2, Profile(Content),
      [Frame(h1, Profile(Header)), Frame(c1, Profile(Content)), Frame(h2, Profile(Header))])
  {
    var m0 := Open<Byte>(cap);
    EntryFrames(m0, h1, c1);
    var m2 := Run(m0, Entry(h1, c1));
    assert m2.out == [Frame(h1, Profile(Header))];
    EntryFrames(m2, h2, c2);
    RunConcat(m0, Entry(h1, c1), Entry(h2, c2));
  }

  /** An archive of two entries: declare, header bytes, declare, content
      bytes, twice over, then close. For any buffer size and any non-empty
      headers and contents that each arrive in one write, exactly four frames
      come out: headers under the header profile and contents under the
      content profile, decoding to the written bytes in order. */
  lemma TwoEntryArchive(cap: nat, h1: seq<Byte>, c1: seq<Byte>, h2: seq<Byte>, c2: seq<Byte>)
    requires 0 < |h1| <= cap && 0 < |c1| <= cap && 0 < |h2| <= cap && 0 < |c2| <= cap
    ensures
      var t := Entry(h1, c1) + Entry(h2, c2);
      && Fits(t, cap)
      && Session(cap, t).out == [
           Frame(h1, Profile(Header)), Frame(c1, Profile(Content)),
           Frame(h2, Profile(Header)), Frame(c2, Profile(Content))]
      && Payloads(Session(cap, t).out) == h1 + c1 + h2 + c2
  {
    TwoEntryRun(cap, h1, c1, h2, c2);
    var fs := Session(cap, Entry(h1, c1) + Entry(h2, c2)).out;
    assert fs == [Frame(h1, Profile(Header)), Frame(c1, Profile(Content)),
                  Frame(h2, Profile(Header)), Frame(c2, Profile(Content))];
    FourPayloads(fs[0], fs[1], fs[2], fs[3]);
  }

  /** The driver's whole run: two entries, then one more declaration right
      before the archive is freed, whose close path writes the end-of-archive
      trailer. The trailer opens segment 5, an odd one, so close yields a
      fifth frame under the header profile. */
  lemma DriverArchive(cap: nat, h1: seq<Byte>, c1: seq<Byte>, h2: seq<Byte>, c2: seq<Byte>, tr: seq<Byte>)
    requires 0 < |h1| <= cap && 0 < |c1| <= cap && 0 < |h2| <= cap && 0 < |c2| <= cap
    requires 0 < |tr| <= cap
    ensures
      var t := Entry(h1, c1) + Entry(h2, c2) + [Declare, Write(tr)];
      && Fits(t, cap)
      && Session(cap, t).out == [
           Frame(h1, Profile(Header)), Frame(c1, Profile(Content)),
           Frame(h2, Profile(Header)), Frame(c2, Profile(Content)),
           Frame(tr, Profile(Header))]
      && Payloads(Session(cap, t).out) == h1 + c1 + h2 + c2 + tr
  {
    var entries := Entry(h1, c1) + Entry(h2, c2);
    TwoEntryRun(cap, h1, c1, h2, c2);
    var m4 := Run(Open(cap), entries);
    DeclareThenWrite(m4, tr);
    RunConcat(Open(cap), entries, [Declare, Write(tr)]);
    var fs4 := [Frame(h1, Profile(Header)), Frame(c1, Profile(Content)),
                Frame(h2, Profile(Header)), Frame(c2, Profile(Content))];
    assert Session(cap, entries + [Declare, Write(tr)]).out == fs4 + [Frame(tr, Profile(Header))];
    FourPayloads(fs4[0], fs4[1], fs4[2], fs4[3]);
    PayloadsEmit(fs4, tr, Profile(Header));
  }

  /** A write of exactly `capacity` bytes fills the buffer completely. Its
      flush test already holds on an empty buffer, so the context is retuned
      before the bytes arrive; the next write, even an empty one, closes the
      full buffer as a frame first. */
  lemma ExactCapacityWrite(a: seq<Byte>)
    requires |a| == 4
    ensures Fits([Write(a), Write([])], 4)
    ensures Run(Open(4), [Write(a)]).buf == a
    ensures var r := Run(Open(4), [Write(a), Write([])]);
      r.buf == [] && r.out == [Frame(a, Profile(Content))] && r.ctx == Profile(Content)
  {
    var m0 := Open<Byte>(4);
    var none: seq<Event<Byte>> := [];
    RunCons(m0, Write(a), none);
    assert [Write(a)] + none == [Write(a)];
    RunPair(m0, Write(a), Write([]));
    var m1 := CbWrite(m0, a);
    assert m1.buf == a && m1.out == [] && m1.ctx == Profile(Content) && m1.state == 0;
    var m2 := CbWrite(m1, []);
    assert m2.out == m1.out + Emit(a, Profile(Content)) && m2.buf == [];
  }

  /** An empty write changes nothing, so an exact-capacity write after it
      still retunes the context before filling the buffer: the session's only
      frame is compressed under the content profile, not the untouched context. */
  lemma EmptyThenExactCapacity(a: seq<Byte>)
    requires |a| == 4
    ensures Fits([Write([]), Write(a)], 4)
    ensures Session(4, [Write([]), Write(a)]).out == [Frame(a, Profile(Content))]
  {
    var m0 := Open<Byte>(4);
    RunPair(m0, Write([]), Write(a));
    var m1 := CbWrite(m0, []);
    assert m1 == m0;
    var m2 := CbWrite(m1, a);
    assert m2.buf == a && m2.out == [] && m2.ctx == Profile(Content);
  }

  /** Writes before any declaration that overflow the buffer: the first frame
      of segment 0 is compressed by the never-reset context, the split-off
      rest by the content profile installed by the mandatory flush. */
  lemma SplitBeforeFirstDeclaration(a: seq<Byte>, b: seq<Byte>)
    requires |a| == 3 && |b| == 2
    ensures Fits([Write(a), Write(b)], 4)
    ensures Session(4, [Write(a), Write(b)]).out == [Frame(a, Defaults), Frame(b, Profile(Content))]
  {
    var m0 := Open<Byte>(4);
    RunPair(m0, Write(a), Write(b));
    var m1 := CbWrite(m0, a);
    assert m1.buf == a && m1.out == [] && m1.ctx == Defaults && m1.state == 0;
    var m2 := CbWrite(m1, b);
    assert m2.out == [Frame(a, Defaults)] && m2.buf == b && m2.ctx == Profile(Content);
  }

  /** A declaration followed only by close flushes the open frame under the
      profile it was written with; the boundary itself is never consumed. */
  lemma DeclareThenClose(d: seq<Byte>)
    requires |d| == 2
    ensures Fits([Declare, Write(d)] + [Declare], 8)
    ensures var r := Session(8, [Declare, Write(d)] + [Declare]);
      && r.out == [Frame(d, Profile(Header))]
      && r.state == 1 && r.expected == 2
  {
    var m0 := Open<Byte>(8);
    DeclareThenWrite(m0, d);
    var m1 := Run(m0, [Declare, Write(d)]);
    assert m1.buf == d && m1.out == [] && m1.ctx == Profile(Header);
    var none: seq<Event<Byte>> := [];
    RunCons(m1, Declare, none);
    assert [Declare] + none == [Declare];
    RunConcat(m0, [Declare, Write(d)], [Declare]);
  }
}

=== FILE: traces.dfy ===
/** Whole runs of the backend: the archive writer's interleaving of segment
    declarations (`changeState`) and writes (`cbWrite`), opened by the
    constructor and finished by `cbClose`. */
module Traces {
  import opened Profiles
  import opened Multiplexer

  /** One call made on the backend between open and close. */
  datatype Event<T> = Declare | Write(data: seq<T>)

  /** No write in `t` is larger than the input buffer. */
  predicate Fits<T>(t: seq<Event<T>>, capacity: nat) {
    forall i :: 0 <= i < |t| && t[i].Write? ==> |t[i].data| <= capacity
  }

  function Step<T>(m: Mux<T>, e: Event<T>): (r: Mux<T>)
    requires e.Write? ==> |e.data| <= m.capacity
    ensures r.capacity == m.capacity
  {
    match e
    case Declare => ChangeState(m)
    case Write(data) => CbWrite(m, data)
  }

  function Run<T>(m: Mux<T>, t: seq<Event<T>>): (r: Mux<T>)
    requires Fits(t, m.capacity)
    ensures r.capacity == m.capacity
    decreases |t|
  {
    if |t| == 0 then m else Run(Step(m, t[0]), t[1..])
  }

  /** All bytes passed to `cbWrite`, in call order. */
  function Written<T>(t: seq<Event<T>>): seq<T> {
    if |t| == 0 then []
    else (if t[0].Write? then t[0].data else []) + Written(t[1..])
  }

  /** Open a backend, replay `t`, close it. */
  function Session<T>(capacity: nat, t: seq<Event<T>>): Mux<T>
    requires 0 < capacity && Fits(t, capacity)
  {
    CbClose(Run(Open(capacity), t))
  }

  /** The invariant holds between any two calls of a run. */
  lemma {:induction false} RunPreservesInv<T>(m: Mux<T>, t: seq<Event<T>>)
    requires Inv(m) && Fits(t, m.capacity)
    ensures Inv(Run(m, t))
    decreases |t|
  {
    if |t| > 0 {
      if t[0].Write? {
        CbWritePreservesInv(m, t[0].data);
      } else {
        ChangeStatePreservesInv(m);
      }
      RunPreservesInv(Step(m, t[0]), t[1..]);
    }
  }

  /** Over any run, only the first frame can have been compressed by the
      untouched context. */
  lemma {:induction false} RunDefaultsFirstOnly<T>(m: Mux<T>, t: seq<Event<T>>)
    requires DefaultsFirstOnly(m) && Fits(t, m.capacity)
    ensures DefaultsFirstOnly(Run(m, t))
    decreases |t|
  {
    if |t| > 0 {
      if t[0].Write? {
        CbWriteDefaultsFirstOnly(m, t[0].data);
      }
      RunDefaultsFirstOnly(Step(m, t[0]), t[1..]);
    }
  }

  /** Conservation: frames written so far followed by the pending buffer are
      exactly the earlier stream followed by every byte written, in order. */
  lemma {:induction false} RunConserves<T>(m: Mux<T>, t: seq<Event<T>>)
    requires Fits(t, m.capacity)
    ensures Payloads(Run(m, t).out) + Run(m, t).buf == Payloads(m.out) + m.buf + Written(t)
    decreases |t|
  {
    if |t| > 0 {
      var next := Step(m, t[0]);
      RunConserves(next, t[1..]);
      if t[0].Write? {
        CbWriteConserves(m, t[0].data);
        assert Written(t) == t[0].data + Written(t[1..]);
        assert Payloads(m.out) + m.buf + t[0].data + Written(t[1..])
            == Payloads(m.out) + m.buf + Written(t);
      } else {
        assert next.out == m.out && next.buf == m.buf;
        assert Written(t) == Written(t[1..]);
      }
    }
  }

  /** The output file is append-only: earlier frames are never rewritten. */
  lemma {:induction false} RunAppendOnly<T>(m: Mux<T>, t: seq<Event<T>>)
    requires Fits(t, m.capacity)
    ensures m.out <= Run(m, t).out
    decreases |t|
  {
    if |t| > 0 {
      RunAppendOnly(Step(m, t[0]), t[1..]);
    }
  }

  /** Running `a` then `b` is running `a + b`. */
  lemma {:induction false} RunConcat<T>(m: Mux<T>, a: seq<Event<T>>, b: seq<Event<T>>)
    requires Fits(a, m.capacity) && Fits(b, m.capacity)
    ensures Fits(a + b, m.capacity)
    ensures Run(m, a + b) == Run(Run(m, a), b)
    decreases |a|
  {
    if |a| == 0 {
      assert a + b == b;
    } else {
      assert (a + b)[1..] == a[1..] + b;
      RunConcat(Step(m, a[0]), a[1..], b);
    }
  }

  /** `n` declarations with no write in between. */
  function Declares<T>(n: nat): (t: seq<Event<T>>)
    ensures |t| == n
    ensures forall i :: 0 <= i < |t| ==> t[i] == Declare
  {
    if n == 0 then [] else [Declare] + Declares(n - 1)
  }

  /** Boundaries are detected lazily: declarations with no following write
      flush nothing and touch only the declared counter. */
  lemma {:induction false} DeclaresEmitNothing<T>(m: Mux<T>, n: nat)
    ensures Fits(Declares<T>(n), m.capacity)
    ensures Run(m, Declares(n)) == m.(expected := m.expected + n)
    decreases n
  {
    var t := Declares<T>(n);
    if n > 0 {
      assert t[1..] == Declares<T>(n - 1);
      DeclaresEmitNothing(ChangeState(m), n - 1);
    }
  }

  /** Running one call, then the rest. */
  lemma RunCons<T>(m: Mux<T>, e: Event<T>, t: seq<Event<T>>)
    requires e.Write? ==> |e.data| <= m.capacity
    requires Fits(t, m.capacity)
    ensures Fits([e] + t, m.capacity)
    ensures Run(m, [e] + t) == Run(Step(m, e), t)
  {
    assert ([e] + t)[0] == e;
    assert ([e] + t)[1..] == t;
  }

  /** Running two calls is applying them in order. */
  lemma RunPair<T>(m: Mux<T>, e1: Event<T>, e2: Event<T>)
    requires e1.Write? ==> |e1.data| <= m.capacity
    requires e2.Write? ==> |e2.data| <= m.capacity
    ensures Fits([e1, e2], m.capacity)
    ensures Run(m, [e1, e2]) == Step(Step(m, e1), e2)
  {
    RunCons(Step(m, e1), e2, []);
    assert [e2] + [] == [e2];
    RunCons(m, e1, [e2]);
    assert [e1] + [e2] == [e1, e2];
  }

  /** Running a prefix, then one more call. */
  lemma RunSnoc<T>(m: Mux<T>, p: seq<Event<T>>, e: Event<T>)
    requires Fits(p, m.capacity) && (e.Write? ==> |e.data| <= m.capacity)
    ensures Fits(p + [e], m.capacity)
    ensures Run(m, p + [e]) == Step(Run(m, p), e)
  {
    var none: seq<Event<T>> := [];
    RunCons(Run(m, p), e, none);
    assert [e] + none == [e];
    RunConcat(m, p, [e]);
  }

  /** A write right after a declaration, whether or not an earlier boundary
      was still pending. This is the step form of `DeclareThenWrite`, kept
      apart only so that proof stays small. */
  lemma WriteAfterDeclare<T>(m: Mux<T>, d: seq<T>)
    requires m.state <= m.expected && |d| <= m.capacity
    ensures CbWrite(ChangeState(m), d) == m.(
      state := m.expected + 1, expected := m.expected + 1, buf := d,
      ctx := Profile(ClassOf(m.expected + 1)), out := m.out + Emit(m.buf, m.ctx))
  {
    var r := CbWrite(ChangeState(m), d);
    assert r.state == m.expected + 1 && r.expected == m.expected + 1 && r.capacity == m.capacity;
    assert r.buf == d && r.out == m.out + Emit(m.buf, m.ctx);
  }

  /** Crossing a boundary: a declaration followed by a write closes the open
      frame (if any) under its own parameters, retunes the context for the
      newest segment, and starts that segment's buffer with the written bytes.
      Segments declared earlier and never written to leave no trace. */
  lemma DeclareThenWrite<T>(m: Mux<T>, d: seq<T>)
    requires m.state <= m.expected && |d| <= m.capacity
    ensures Fits([Declare, Write(d)], m.capacity)
    ensures Run(m, [Declare, Write(d)]) == m.(
      state := m.expected + 1, expected := m.expected + 1, buf := d,
      ctx := Profile(ClassOf(m.expected + 1)), out := m.out + Emit(m.buf, m.ctx))
  {
    RunPair(m, Declare, Write(d));
    WriteAfterDeclare(m, d);
  }

  /** Round trip of a whole session: after close nothing is pending, every
      frame is non-empty, and the frames decode, in order, to exactly the
      bytes written. */
  lemma SessionRoundTrip<T>(capacity: nat, t: seq<Event<T>>)
    requires 0 < capacity && Fits(t, capacity)
    ensures Session(capacity, t).buf == []
    ensures Payloads(Session(capacity, t).out) == Written(t)
    ensures forall i :: 0 <= i < |Session(capacity, t).out| ==> |Session(capacity, t).out[i].payload| > 0
  {
    var m0 := Open<T>(capacity);
    var mr := Run(m0, t);
    var mc := CbClose(mr);
    assert Session(capacity, t) == mc;
    RunPreservesInv(m0, t);
    CbClosePreservesInv(mr);
    assert Inv(mc);
    RunConserves(m0, t);
    CbCloseConserves(mr);
    assert Payloads(m0.out) == [] && m0.buf == [];
    assert Payloads(mr.out) + mr.buf == Written(t);
  }

  /** In every session, every frame after the first is compressed under a
      profile from the table: the never-reset context can only have been
      used by the very first frame. */
  lemma OnlyFirstFrameUntuned<T>(capacity: nat, t: seq<Event<T>>)
    requires 0 < capacity && Fits(t, capacity)
    ensures forall i :: 0 < i < |Session(capacity, t).out| ==> Session(capacity, t).out[i].config != Defaults
  {
    var m0 := Open<T>(capacity);
    RunDefaultsFirstOnly(m0, t);
    FlushDataDefaultsFirstOnly(Run(m0, t));
  }
}
